=== FILE: README.md ===
# Touch-log scan of `visualise.py`, modelled in Dafny

`parse_and_visualize` reads a Linux `getevent` log line by line. It keeps the most recent
`ABS_MT_POSITION_X` and `ABS_MT_POSITION_Y` values of the multi-touch protocol, both decoded
from hex, as *pending* coordinates. On every `SYN_REPORT` line it commits them as one touch
point, provided both are pending. The commit reads the line's bracketed kernel timestamp and
starts a new *group* (gesture) when the gap to the previous point exceeds 0.5 s. It then
appends raw x, y flipped against the 3120-pixel screen height, and the group's palette colour
to three parallel lists. Both pending coordinates are cleared on every `SYN_REPORT` line. At
the end the function returns early when no point was found. Otherwise it reports
`group_id + 1` groups and plots the lists.

The model is a left fold over the log with immutable state, in eight modules:

- `Wrappers`: `Option` and `Result`. A raised exception is a `Failure`.
- `Text`: Python's whitespace, the substring test `pat in line`, and
  `line.strip().split()[-1]`.
- `Hex`: `int(token, 16)` on a run of hex digits, plus the zero-padded formatter `getevent`
  uses to print coordinates, with a round-trip lemma.
- `Timestamp`: the search for `\[\s*(\d+\.\d+)\s*\]`, done as a single left-to-right scan.
  The leftmost match wins and the value is an exact `real`.
- `Lexer`: what one line says, as an `Event`. That is the coordinate token it sets (X
  first, `elif` Y), whether it is a `SYN_REPORT`, and its timestamp.
- `Parser`: the pending-coordinate state machine (`Apply`, `Feed`) and the fold `Points`
  that yields the committed touch points.
- `Segmenter`: the gap rule `last > 0 && t - last > 0.5` and the group index of each point
  (`GroupIds`).
- `Visualise`: the loop as written. It keeps one `State` (pending x/y, last timestamp,
  group counter, three output lists), with `Record`, `Scan`, `Finish` and
  `ParseAndVisualize`. The theorem `ScanAgrees` proves that this fused loop computes exactly
  "parse the points, then group them by time". The main lemmas are stated against that
  two-phase reading.

The model keeps these behaviours of the code:

- A new group needs `last_timestamp > 0` as well as a gap above the threshold. So a point
  stamped exactly `0.0` never causes a split after it (`Segmenter.ZeroStampNeverSplits`).
- Colours are cycled by group index inside the scan.
- The code never builds gesture lists, only group indices, and the model does the same.
- Timestamps that go backwards never split a group (`Segmenter.NoSplitWithoutForwardGap`).

## Model

| member | source | states |
|---|---|---|
| Text.LastToken | visualise.py:36 | the result holds no whitespace and sits in the line with only whitespace after it and whitespace or the line start before it; it is empty exactly when the line is blank |
| Text.LastTokenOf | visualise.py:36 | a token preceded by whitespace (or nothing) and followed only by whitespace is the one `strip().split()[-1]` returns |
| Hex.Parse | visualise.py:37 | a token decodes exactly when it is a non-empty run of hex digits, to a value below 16 to the power of its length |
| Hex.ParseFormat | visualise.py:37 | decoding gives back any number written in hex, in upper or lower case, with any zero padding, as `getevent` prints coordinates; so `A`-`F` decode like `a`-`f` |
| Timestamp.MatchAt | visualise.py:45 | a timestamp can only match where a `[` stands, and its value is never negative |
| Timestamp.Decimal | visualise.py:46 | `whole.frac` lies between its whole part and the next integer |
| Timestamp.DecimalValueFormat | visualise.py:46 | reading a run of decimal digits gives back any number written in decimal with any zero padding |
| Timestamp.KernelStamp | visualise.py:45-46 | a timestamp the kernel prints as `%lu.%06lu` reads back as seconds plus microseconds over a million, so `100.000100` is 100.0001 |
| Timestamp.Find | visualise.py:45 | the result is the leftmost position where the bracket pattern matches, and it is absent exactly when the pattern matches nowhere |
| Timestamp.BracketedLayout | visualise.py:45 | the kernel's `[`, padding, digits `.` digits, padding, `]`, embedded anywhere in a line, lies in the line part by part as the pattern reads it |
| Timestamp.MatchLaidOut | visualise.py:45-46 | a line holding `[`, padding, digits `.` digits, padding, `]` at some index matches there, with the value the digits denote |
| Timestamp.MatchSound | visualise.py:45-46 | conversely, whenever the pattern matches at an index, the match is a `[`, padding, a non-empty digit run, `.`, a non-empty digit run, padding and `]` laid out from its index, with the value those digits denote |
| Timestamp.MatchIffWellFormed | visualise.py:45 | the pattern matches at an index exactly when a well-formed bracketed timestamp — `[`, padding, a non-empty digit run, `.`, a non-empty digit run, padding and `]` — is laid out from there |
| Timestamp.FindLaidOut | visualise.py:45-46 | when no `[` precedes a well-formed bracketed timestamp, that timestamp is the one found |
| Lexer.Lex | visualise.py:35-42 | a line updates X when it contains the X marker, otherwise Y when it contains the Y marker, always with its last token; it commits exactly when it contains `SYN_REPORT`, which it may do in addition to an update |
| Parser.Apply | visualise.py:35-40 | an update replaces the pending value on its axis whatever was there and leaves the other axis alone; it fails only on a token that is not hex |
| Parser.Feed | visualise.py:35-61 | a line fails on a bad token, or on a commit with both coordinates pending and no timestamp; a commit emits a point exactly when both coordinates are pending, needs a timestamp only then, and always leaves nothing pending; an unmarked line changes nothing |
| Parser.FeedUpdate | visualise.py:35-40 | an update line with a hex token sets its axis and emits nothing |
| Parser.FeedCommit | visualise.py:42-61 | a bare commit with both coordinates pending emits them at the line's timestamp and clears them |
| Parser.Points | visualise.py:33-61 | there are never more points than `SYN_REPORT` lines; after a `SYN_REPORT` line nothing is pending; an error names a line of the log |
| Parser.StopsAtFirstError | visualise.py:35-46 | a failing scan processed every line before the failing one, and that line's own step raises the reported error |
| Parser.PointTimestampsFromLines | visualise.py:42-46 | every committed point's timestamp is that of some `SYN_REPORT` line of the log |
| Parser.PointsOfQuiet | visualise.py:35-42 | a log with no X, Y or `SYN_REPORT` line leaves nothing pending and yields no point |
| Parser.PointsPrefixes | visualise.py:33-46 | a log that scans without error scanned without error up to every earlier line |
| Parser.TrailingUpdatesDropped | visualise.py:42-61 | lines without a `SYN_REPORT` add no point, so coordinates with no later commit are never emitted |
| Parser.LastValueWins | visualise.py:35-61 | with two X updates, a Y update and a commit, the point emitted carries the second X value |
| Segmenter.GroupIds | visualise.py:49-50 | the first point is in group 0; each later point keeps its predecessor's group or takes the next one, and takes the next one exactly when the previous timestamp is positive and the gap exceeds 0.5 s |
| Segmenter.NoSplitWithoutForwardGap | visualise.py:49-50 | a point no later than its predecessor, or following a point stamped 0.0, stays in its predecessor's group |
| Segmenter.GroupIdsBetween | visualise.py:49-50 | group indices never decrease and grow by at most one per point |
| Segmenter.GroupIdsContiguous | visualise.py:49-50 | the groups in use are exactly 0 up to the last point's group |
| Segmenter.DistinctGroups | visualise.py:67 | the number of distinct groups is the last point's group plus one |
| Segmenter.TwoGestures | visualise.py:49-50 | points at 1.000, 1.010, 1.020 and 2.000 s form two groups, the last point alone in the second |
| Segmenter.ZeroStampNeverSplits | visualise.py:28-50 | a first point at 0.0 s followed by one at 5.0 s stays in one group |
| Visualise.Colour | visualise.py:55 | every colour handed out is one of the ten palette entries |
| Visualise.Record | visualise.py:49-61 | earlier output is never changed; the three lists grow together by one exactly when a point is emitted, with raw x, `3120 - y` and the colour of the new group; the counter grows by one exactly when the gap rule fires and stays put without a point |
| Visualise.Scan | visualise.py:26-61 | the three lists have equal length, no more than the `SYN_REPORT` lines; every colour is in the palette; the counter is 0 with no points and otherwise below the number of points; nothing is pending after a `SYN_REPORT` line |
| Visualise.ScanLines | visualise.py:33-61 | on text lines, nothing is pending after a `SYN_REPORT` line and there are no more points than `SYN_REPORT` lines |
| Visualise.Finish | visualise.py:63-67 | the early return happens exactly when no point was found; otherwise the lists are reported with the counter plus one as the group count |
| Visualise.ParseAndVisualize | visualise.py:14-67 | the function fails exactly when the parse does and returns early exactly when the parse commits no point; otherwise each list has one entry per committed point |
| Visualise.RecordAgrees | visualise.py:49-58 | one loop iteration keeps the fused state equal to parse-then-group of the points so far |
| Visualise.ScanAgrees | visualise.py:26-61 | the loop fails exactly when the parse fails, with the same line and reason; otherwise x is each point's raw x, y is `3120 - y`, each colour is that of the point's time-gap group, and the counter and last timestamp are the last point's |
| Visualise.ReportedGroupsAreDistinct | visualise.py:67 | the reported `group_id + 1` equals the number of distinct time-gap groups among the plotted points |
| Visualise.ColoursCycleByGroup | visualise.py:55 | the colour of each plotted point is palette entry (group index mod 10) |
| Visualise.SamePointsSameOutput | visualise.py:33-61 | the loop's output depends only on the committed points: two logs that commit the same points yield the same lists and the same group counter |
| Visualise.TrailingCoordinatesNotPlotted | visualise.py:42-61 | lines without a `SYN_REPORT` change neither the output lists nor the group counter |
| Visualise.QuietLogHasNoPoints | visualise.py:63-65 | a log with no marker on any line, the empty log included, takes the early return without error |

## Left out

- Plotting (style, scatter, axis limits, saving and showing the figure) is not modelled, because it is a foreign library and UI. `SCREEN_WIDTH` is used only there.
- Opening and iterating the file, and every message printed, are not modelled. The log is a `seq<string>` of lines.
- The command-line entry point is not modelled.
- Python's `float()` rounding is not modelled. A timestamp is the exact decimal value as a `real`, so two timestamps compare and subtract exactly.
- `int(token, 16)` also accepts a `0x` prefix, underscores, a sign and non-ASCII decimal digits such as U+0663. These are rejected here as `BadCoordinate`, because `getevent` prints bare hex digits.
- `\d` in the timestamp pattern, and `float()`, also accept non-ASCII decimal digits. Only `0`-`9` are accepted here.
- The `IndexError` that `split()[-1]` would raise on a blank line cannot occur, because an update line contains its marker. `Lexer.Lex` proves the token is non-empty.
- Parser.LastValueWins: stated over classified lines (`Lexer.Event`) rather than raw text, because unfolding the text scanners inside the fold is too costly for the verifier. `Lexer.Lex` states how each kind of text line is classified.
- Parser.TrailingUpdatesDropped: stated over classified lines, for the same reason.
- Visualise.TrailingCoordinatesNotPlotted: stated over classified lines, for the same reason.
- Parser.PointsOfQuiet: stated over classified lines. `Visualise.QuietLogHasNoPoints` gives the text-line form.

=== FILE: hex.dfy ===
/** Base-16 decoding of a coordinate token (Python's `int(token, 16)` on a plain run of
    hex digits) and the zero-padded formatter, in either case, that `getevent` uses to
    print coordinates. */
module Hex {
  import opened Wrappers

  predicate IsHexDigit(c: char) {
    ('0' <= c <= '9') || ('a' <= c <= 'f') || ('A' <= c <= 'F')
  }

  predicate AllHex(s: string) {
    forall i | 0 <= i < |s| :: IsHexDigit(s[i])
  }

  function DigitValue(c: char): (v: nat)
    requires IsHexDigit(c)
    ensures v < 16
  {
    if '0' <= c <= '9' then c as int - '0' as int
    else if 'a' <= c <= 'f' then c as int - 'a' as int + 10
    else c as int - 'A' as int + 10
  }

  function Pow16(n: nat): (p: nat)
    ensures p >= 1
  {
    if n == 0 then 1 else 16 * Pow16(n - 1)
  }

  /** The number a run of hex digits denotes, most significant digit first. */
  function Value(s: string): (v: nat)
    requires AllHex(s)
    ensures v < Pow16(|s|)
  {
    if |s| == 0 then 0 else Value(s[..|s| - 1]) * 16 + DigitValue(s[|s| - 1])
  }

  /** Decode a coordinate token; anything but a non-empty run of hex digits is rejected. */
  function Parse(s: string): (r: Option<nat>)
    ensures r.Some? <==> |s| > 0 && AllHex(s)
    ensures r.Some? ==> r.value < Pow16(|s|)
  {
    if |s| > 0 && AllHex(s) then Some(Value(s)) else None
  }

  /** The digit for a value below 16, in upper or lower case. */
  function Digit(v: nat, upper: bool): (c: char)
    requires v < 16
    ensures IsHexDigit(c) && DigitValue(c) == v
  {
    if v < 10 then ('0' as int + v) as char
    else if upper then ('A' as int + v - 10) as char
    else ('a' as int + v - 10) as char
  }

  /** `n` in hex, zero-padded to at least `width` digits (C's `%0*x`, or `%0*X` when
      `upper`). */
  function Format(n: nat, width: nat, upper: bool): (s: string)
    ensures |s| >= 1 && |s| >= width
    ensures AllHex(s)
    decreases n + width
  {
    if n < 16 && width <= 1 then [Digit(n, upper)]
    else Format(n / 16, if width > 0 then width - 1 else 0, upper) + [Digit(n % 16, upper)]
  }

  /** Decoding undoes formatting, whatever the padding and whichever the case. */
  lemma {:induction false} ParseFormat(n: nat, width: nat, upper: bool)
    ensures Parse(Format(n, width, upper)) == Some(n)
    decreases n + width
  {
    var s := Format(n, width, upper);
    if n < 16 && width <= 1 {
      assert s[..0] == [];
    } else {
      var w := if width > 0 then width - 1 else 0;
      ParseFormat(n / 16, w, upper);
      assert s[..|s| - 1] == Format(n / 16, w, upper);
    }
  }
}

=== FILE: lexer.dfy ===
/** What one log line says to the scan: which coordinate it updates (by its last token),
    whether it is a `SYN_REPORT` commit, and the bracketed timestamp it carries. */
module Lexer {
  import opened Wrappers
  import opened Text
  import Timestamp

  const XMarker: string := "ABS_MT_POSITION_X"
  const YMarker: string := "ABS_MT_POSITION_Y"
  const SynMarker: string := "SYN_REPORT"

  datatype Axis = X | Y

  /** The coordinate half of a line: nothing, or a raw token for one axis. */
  datatype Update = NoUpdate | SetCoord(axis: Axis, token: string)

  /** A classified line. `stamp` is the line's timestamp, consulted only when a commit
      actually emits a point. */
  datatype Event = Event(update: Update, isSyn: bool, stamp: Option<real>)

  predicate IsXLine(line: string) {
    Contains(line, XMarker)
  }

  /** A Y update counts only on a line that is not also an X update (`elif`). */
  predicate IsYLine(line: string) {
    !IsXLine(line) && Contains(line, YMarker)
  }

  predicate IsSynLine(line: string) {
    Contains(line, SynMarker)
  }

  /** A line none of the three markers occurs in. */
  predicate IsUnmarked(line: string) {
    !Contains(line, XMarker) && !Contains(line, YMarker) && !IsSynLine(line)
  }

  /** Classify a line. The X test comes first; a line may be both an update and a commit,
      since the `SYN_REPORT` test is a separate `if`. */
  function Lex(line: string): (e: Event)
    ensures e.update.SetCoord? <==> IsXLine(line) || IsYLine(line)
    ensures e.update.SetCoord? ==>
              && e.update.axis == (if IsXLine(line) then X else Y)
              && e.update.token == LastToken(line)
              && e.update.token != []
    ensures e.isSyn <==> IsSynLine(line)
    ensures e.stamp == Timestamp.Find(line)
    ensures e.stamp.Some? ==> e.stamp.value >= 0.0
  {
    var update :=
      if IsXLine(line) then
        ContainsVisibleNotBlank(line, XMarker, 0);
        SetCoord(X, LastToken(line))
      else if IsYLine(line) then
        ContainsVisibleNotBlank(line, YMarker, 0);
        SetCoord(Y, LastToken(line))
      else NoUpdate;
    var stamp := Timestamp.Find(line);
    assert stamp.Some? ==> stamp.value >= 0.0 by {
      if stamp.Some? {
        var i :| 0 <= i < |line| && Timestamp.MatchAt(line, i) == stamp;
      }
    }
    Event(update, IsSynLine(line), stamp)
  }

  /** Classify every line of a log, in order. */
  function LexAll(lines: seq<string>): (es: seq<Event>)
    ensures |es| == |lines|
    ensures forall i | 0 <= i < |lines| :: es[i] == Lex(lines[i])
  {
    seq(|lines|, i requires 0 <= i < |lines| => Lex(lines[i]))
  }
}

=== FILE: parser.dfy ===
/** The event half of the scan: pending X/Y coordinates set by update lines and committed
    as one touch point by the next `SYN_REPORT` line. */
module Parser {
  import opened Wrappers
  import opened Lexer
  import Hex

  /** A committed sample: raw device coordinates and the kernel timestamp in seconds. */
  datatype TouchPoint = TouchPoint(x: nat, y: nat, timestamp: real)

  /** The coordinates seen since the last `SYN_REPORT`. */
  datatype Pending = Pending(x: Option<nat>, y: Option<nat>) {
    predicate Complete() {
      x.Some? && y.Some?
    }
  }

  const Cleared: Pending := Pending(None, None)

  /** Why a line aborts the scan: a coordinate token that is not hex (`ValueError` from
      `int`), or a commit line with no timestamp (`re.search` returning `None`). */
  datatype ErrorKind = BadCoordinate(token: string) | MissingTimestamp

  /** The index of the line that aborted the scan and the reason. */
  datatype ScanError = ScanError(line: nat, kind: ErrorKind)

  /** What one line does: the pending coordinates afterwards and the point it commits, if any. */
  datatype Feeding = Feeding(pending: Pending, emitted: Option<TouchPoint>)

  /** The state after a prefix of the log: pending coordinates and the points committed so far. */
  datatype Parsed = Parsed(pending: Pending, points: seq<TouchPoint>)

  /** The coordinate half of a line: the decoded token replaces whatever was pending on
      its axis and leaves the other axis alone. */
  function Apply(p: Pending, u: Update): (r: Result<Pending, ErrorKind>)
    ensures u.NoUpdate? ==> r == Success(p)
    ensures u.SetCoord? ==> (r.Success? <==> Hex.Parse(u.token).Some?)
    ensures u.SetCoord? && r.Success? ==>
              r.value == (if u.axis == X then Pending(Hex.Parse(u.token), p.y)
                          else Pending(p.x, Hex.Parse(u.token)))
    ensures r.Failure? ==> u.SetCoord? && r.error == BadCoordinate(u.token)
  {
    match u
    case NoUpdate => Success(p)
    case SetCoord(axis, token) =>
      match Hex.Parse(token)
      case None => Failure(BadCoordinate(token))
      case Some(v) => Success(if axis == X then p.(x := Some(v)) else p.(y := Some(v)))
  }

  /** One line of the scan: the coordinate update, then, on a `SYN_REPORT` line, the commit.
      A commit emits a point only when both coordinates are pending, needs a timestamp only
      then, and clears both pending coordinates either way. */
  function Feed(p: Pending, e: Event): (r: Result<Feeding, ErrorKind>)
    ensures r.Success? <==>
              && Apply(p, e.update).Success?
              && !(e.isSyn && Apply(p, e.update).value.Complete() && e.stamp.None?)
    ensures r.Failure? ==> (r.error == MissingTimestamp <==> Apply(p, e.update).Success?)
    ensures r.Success? && e.isSyn ==> r.value.pending == Cleared
    ensures r.Success? && !e.isSyn ==> r.value == Feeding(Apply(p, e.update).value, None)
    ensures r.Success? ==>
              (r.value.emitted.Some? <==> e.isSyn && Apply(p, e.update).value.Complete())
    ensures r.Success? && r.value.emitted.Some? ==>
              var u := Apply(p, e.update).value;
              r.value.emitted.value == TouchPoint(u.x.value, u.y.value, e.stamp.value)
    ensures e.update.NoUpdate? && !e.isSyn ==> r == Success(Feeding(p, None))
    ensures e.update.NoUpdate? && e.isSyn && !p.Complete() ==> r == Success(Feeding(Cleared, None))
  {
    var u :- Apply(p, e.update);
    if !e.isSyn then
      Success(Feeding(u, None))
    else if u.Complete() then
      match e.stamp
      case None => Failure(MissingTimestamp)
      case Some(t) => Success(Feeding(Cleared, Some(TouchPoint(u.x.value, u.y.value, t))))
    else
      Success(Feeding(Cleared, None))
  }

  /** The points a `Feed` result contributes. */
  function Emitted(e: Option<TouchPoint>): seq<TouchPoint> {
    if e.Some? then [e.value] else []
  }

  /** The number of `SYN_REPORT` lines among `es`. */
  function SynCount(es: seq<Event>): (n: nat)
    ensures n <= |es|
  {
    if |es| == 0 then 0
    else SynCount(es[..|es| - 1]) + (if es[|es| - 1].isSyn then 1 else 0)
  }

  /** The scan over a classified log, line by line, stopping at the first line that raises. */
  function Points(es: seq<Event>): (r: Result<Parsed, ScanError>)
    ensures r.Success? ==> |r.value.points| <= SynCount(es)
    ensures r.Success? && |es| > 0 && es[|es| - 1].isSyn ==> r.value.pending == Cleared
    ensures r.Failure? ==> r.error.line < |es|
  {
    if |es| == 0 then Success(Parsed(Cleared, []))
    else
      var prev :- Points(es[..|es| - 1]);
      match Feed(prev.pending, es[|es| - 1])
      case Failure(e) => Failure(ScanError(|es| - 1, e))
      case Success(f) => Success(Parsed(f.pending, prev.points + Emitted(f.emitted)))
  }

  /** Appending one line runs `Feed` on it from the state the earlier lines left. */
  lemma PointsSnoc(es: seq<Event>, e: Event)
    requires Points(es).Success?
    ensures var f := Feed(Points(es).value.pending, e);
            && (f.Failure? ==> Points(es + [e]) == Failure(ScanError(|es|, f.error)))
            && (f.Success? ==>
                  Points(es + [e]) ==
                  Success(Parsed(f.value.pending, Points(es).value.points + Emitted(f.value.emitted))))
  {
    assert (es + [e])[..|es|] == es;
  }

  /** A non-empty log is its front followed by its last line. */
  lemma DropLast(es: seq<Event>)
    requires |es| > 0
    ensures es[..|es| - 1] + [es[|es| - 1]] == es
  {
  }

  lemma AppendFour(es: seq<Event>, e1: Event, e2: Event, e3: Event, e4: Event)
    ensures es + [e1] + [e2] + [e3] + [e4] == es + [e1, e2, e3, e4]
  {
  }

  /** Splitting off the last line of a non-empty tail. */
  lemma SplitLast(es: seq<Event>, rest: seq<Event>)
    requires |rest| > 0
    ensures es + rest == (es + rest[..|rest| - 1]) + [rest[|rest| - 1]]
  {
    assert rest == rest[..|rest| - 1] + [rest[|rest| - 1]];
  }

  /** A log that scans without error scanned without error up to its last line. */
  lemma PointsPrefix(es: seq<Event>, e: Event)
    requires Points(es + [e]).Success?
    ensures Points(es).Success?
  {
    assert (es + [e])[..|es|] == es;
  }

  /** A log that scans without error scanned without error up to every earlier line. */
  lemma {:induction false} PointsPrefixes(es: seq<Event>, rest: seq<Event>)
    requires Points(es + rest).Success?
    ensures Points(es).Success?
  {
    if |rest| > 0 {
      SplitLast(es, rest);
      PointsPrefix(es + rest[..|rest| - 1], rest[|rest| - 1]);
      PointsPrefixes(es, rest[..|rest| - 1]);
    } else {
      assert es + rest == es;
    }
  }

  /** Every committed point carries the timestamp of some `SYN_REPORT` line of the log. */
  lemma {:induction false} PointTimestampsFromLines(es: seq<Event>, k: nat)
    requires Points(es).Success?
    requires k < |Points(es).value.points|
    ensures exists i | 0 <= i < |es| :: es[i].isSyn && es[i].stamp == Some(Points(es).value.points[k].timestamp)
  {
    var n := |es| - 1;
    DropLast(es);
    PointsPrefix(es[..n], es[n]);
    PointsSnoc(es[..n], es[n]);
    if k < |Points(es[..n]).value.points| {
      PointTimestampsFromLines(es[..n], k);
      var i :| 0 <= i < n && es[..n][i].isSyn && es[..n][i].stamp == Some(Points(es[..n]).value.points[k].timestamp);
      assert es[i] == es[..n][i];
    } else {
      assert es[n].isSyn;
    }
  }

  /** A log in which no line carries a marker leaves nothing pending and yields no points. */
  lemma {:induction false} PointsOfQuiet(es: seq<Event>)
    requires forall i | 0 <= i < |es| :: es[i].update == NoUpdate && !es[i].isSyn
    ensures Points(es) == Success(Parsed(Cleared, []))
  {
    if |es| > 0 {
      var n := |es| - 1;
      PointsOfQuiet(es[..n]);
      PointsSnoc(es[..n], es[n]);
      DropLast(es);
    }
  }

  /** Coordinates seen after the last `SYN_REPORT` are never emitted: lines without a
      `SYN_REPORT` add no point. */
  lemma {:induction false} TrailingUpdatesDropped(es: seq<Event>, rest: seq<Event>)
    requires SynCount(rest) == 0
    requires Points(es + rest).Success?
    ensures Points(es).Success?
    ensures Points(es + rest).value.points == Points(es).value.points
  {
    PointsPrefixes(es, rest);
    if |rest| > 0 {
      var front := rest[..|rest| - 1];
      var last := rest[|rest| - 1];
      SplitLast(es, rest);
      PointsPrefix(es + front, last);
      PointsSnoc(es + front, last);
      TrailingUpdatesDropped(es, front);
    } else {
      assert es + rest == es;
    }
  }

  /** The scan stops at the first line that raises: every earlier line was processed
      and that line's own step fails. */
  lemma {:induction false} StopsAtFirstError(es: seq<Event>)
    requires Points(es).Failure?
    ensures var k := Points(es).error.line;
            && Points(es[..k]).Success?
            && Feed(Points(es[..k]).value.pending, es[k]) == Failure(Points(es).error.kind)
  {
    var n := |es| - 1;
    var front := es[..n];
    if Points(front).Failure? {
      StopsAtFirstError(front);
      var k := Points(front).error.line;
      assert front[..k] == es[..k];
    }
  }

  /** An update line with a hex token sets its axis and commits nothing. */
  lemma FeedUpdate(p: Pending, e: Event)
    requires e.update.SetCoord? && !e.isSyn && Hex.Parse(e.update.token).Some?
    ensures Feed(p, e) ==
              Success(Feeding(if e.update.axis == X then p.(x := Hex.Parse(e.update.token))
                              else p.(y := Hex.Parse(e.update.token)), None))
  {
  }

  /** A bare commit with both coordinates pending emits them at its timestamp. */
  lemma FeedCommit(p: Pending, e: Event)
    requires e.update.NoUpdate? && e.isSyn && e.stamp.Some? && p.Complete()
    ensures Feed(p, e) == Success(Feeding(Cleared, Some(TouchPoint(p.x.value, p.y.value, e.stamp.value))))
  {
  }

  /** Last value wins on each axis: of two X updates before the commit, the later one is
      emitted, together with the pending Y, at the commit line's timestamp. */
  lemma LastValueWins(es: seq<Event>, e1: Event, e2: Event, e3: Event, e4: Event)
    requires Points(es).Success?
    requires e1.update.SetCoord? && e1.update.axis == X && !e1.isSyn && Hex.Parse(e1.update.token).Some?
    requires e2.update.SetCoord? && e2.update.axis == X && !e2.isSyn && Hex.Parse(e2.update.token).Some?
    requires e3.update.SetCoord? && e3.update.axis == Y && !e3.isSyn && Hex.Parse(e3.update.token).Some?
    requires e4.update.NoUpdate? && e4.isSyn && e4.stamp.Some?
    ensures Points(es + [e1, e2, e3, e4]) ==
            Success(Parsed(Cleared, Points(es).value.points +
              [TouchPoint(Hex.Parse(e2.update.token).value, Hex.Parse(e3.update.token).value, e4.stamp.value)]))
  {
    var v1 := Hex.Parse(e1.update.token);
    var v2 := Hex.Parse(e2.update.token);
    var vy := Hex.Parse(e3.update.token);
    var p0 := Points(es).value;
    var s1 := es + [e1];
    var s2 := s1 + [e2];
    var s3 := s2 + [e3];
    assert p0.points + Emitted(None) == p0.points;
    FeedUpdate(p0.pending, e1);
    PointsSnoc(es, e1);
    assert Points(s1) == Success(Parsed(p0.pending.(x := v1), p0.points));
    FeedUpdate(p0.pending.(x := v1), e2);
    PointsSnoc(s1, e2);
    assert Points(s2) == Success(Parsed(p0.pending.(x := v2), p0.points));
    FeedUpdate(p0.pending.(x := v2), e3);
    PointsSnoc(s2, e3);
    assert Points(s3) == Success(Parsed(Pending(v2, vy), p0.points));
    FeedCommit(Pending(v2, vy), e4);
    PointsSnoc(s3, e4);
    AppendFour(es, e1, e2, e3, e4);
  }
}

=== FILE: segmenter.dfy ===
/** Grouping of committed points into gestures by the time gap between consecutive points. */
module Segmenter {

  /** Largest gap, in seconds, between two points of the same gesture. */
  const GroupingThreshold: real := 0.5

  /** The split rule: a new group starts when the previous point's timestamp is positive
      and the gap to it exceeds the threshold. The previous timestamp starts at `0.0`,
      so that value also means "no previous point". */
  predicate StartsNewGroup(last: real, current: real) {
    last > 0.0 && current - last > GroupingThreshold
  }

  /** Link `i` of the grouping: the id of point `i` equals that of point `i - 1`, or is one
      more exactly when the split rule fires between them. */
  predicate Linked(ts: seq<real>, ids: seq<nat>, i: nat)
    requires 0 < i < |ts| == |ids|
  {
    && (ids[i] == ids[i - 1] || ids[i] == ids[i - 1] + 1)
    && (ids[i] == ids[i - 1] + 1 <==> StartsNewGroup(ts[i - 1], ts[i]))
  }

  /** The group index of each point, given the points' timestamps in arrival order. */
  function GroupIds(ts: seq<real>): (ids: seq<nat>)
    ensures |ids| == |ts|
    ensures |ts| > 0 ==> ids[0] == 0
    ensures forall i | 0 < i < |ts| :: Linked(ts, ids, i)
  {
    if |ts| == 0 then []
    else
      var prev := GroupIds(ts[..|ts| - 1]);
      var next :=
        if |ts| == 1 then 0
        else prev[|prev| - 1] + (if StartsNewGroup(ts[|ts| - 2], ts[|ts| - 1]) then 1 else 0);
      var ids := prev + [next];
      assert forall i | 0 < i < |ts| - 1 :: Linked(ts, ids, i) by {
        forall i | 0 < i < |ts| - 1
          ensures Linked(ts, ids, i)
        {
          assert Linked(ts[..|ts| - 1], prev, i);
        }
      }
      ids
  }

  /** A point no later than its predecessor, or following a point stamped `0.0`, never
      starts a group: a clock that steps back merges rather than splits. */
  lemma NoSplitWithoutForwardGap(ts: seq<real>, i: nat)
    requires 0 < i < |ts|
    requires ts[i] <= ts[i - 1] || ts[i - 1] == 0.0
    ensures GroupIds(ts)[i] == GroupIds(ts)[i - 1]
  {
    assert Linked(ts, GroupIds(ts), i);
  }

  /** Appending a timestamp appends one id and leaves the earlier ids alone. */
  lemma GroupIdsSnoc(ts: seq<real>, t: real)
    ensures GroupIds(ts + [t])[..|ts|] == GroupIds(ts)
    ensures |ts| > 0 ==>
              GroupIds(ts + [t])[|ts|] ==
              GroupIds(ts)[|ts| - 1] + (if StartsNewGroup(ts[|ts| - 1], t) then 1 else 0)
  {
    var u := ts + [t];
    assert u[..|u| - 1] == ts;
    if |ts| > 0 {
      assert Linked(u, GroupIds(u), |ts|);
    }
  }

  /** Ids never decrease, and grow by at most one per point. */
  lemma {:induction false} GroupIdsBetween(ts: seq<real>, i: nat, j: nat)
    requires i <= j < |ts|
    ensures GroupIds(ts)[i] <= GroupIds(ts)[j] <= GroupIds(ts)[i] + (j - i)
    decreases j - i
  {
    if i < j {
      GroupIdsBetween(ts, i, j - 1);
      assert Linked(ts, GroupIds(ts), j);
    }
  }

  /** The naturals `0` to `n`. */
  function UpTo(n: nat): (r: set<nat>)
    ensures forall g: nat :: g in r <==> g <= n
    ensures |r| == n + 1
  {
    if n == 0 then {0} else UpTo(n - 1) + {n}
  }

  /** The distinct values of a sequence. */
  function Values(ids: seq<nat>): set<nat> {
    set g | g in ids
  }

  lemma ValuesSnoc(ids: seq<nat>, v: nat)
    ensures Values(ids + [v]) == Values(ids) + {v}
  {
  }

  lemma UpToHas(m: nat)
    ensures UpTo(m) + {m} == UpTo(m)
  {
    assert m in UpTo(m);
  }

  lemma UpToNext(m: nat)
    ensures UpTo(m) + {m + 1} == UpTo(m + 1)
  {
  }

  /** The element at `i` equals its predecessor or exceeds it by one. */
  predicate ClimbsAt(ids: seq<nat>, i: nat)
    requires 0 < i < |ids|
  {
    ids[i] == ids[i - 1] || ids[i] == ids[i - 1] + 1
  }

  /** A sequence that starts at `0` and climbs by steps of zero or one takes, in each
      prefix, every value from `0` to the prefix's last element and no other. */
  lemma {:induction false} StepwiseContiguous(ids: seq<nat>, k: nat)
    requires 0 < k <= |ids| && ids[0] == 0
    requires forall i | 0 < i < |ids| :: ClimbsAt(ids, i)
    ensures Values(ids[..k]) == UpTo(ids[k - 1])
  {
    if k == 1 {
      assert ids[..1] == [0];
      assert Values(ids[..1]) == {0};
    } else {
      StepwiseContiguous(ids, k - 1);
      assert ids[..k] == ids[..k - 1] + [ids[k - 1]];
      ValuesSnoc(ids[..k - 1], ids[k - 1]);
      var m := ids[k - 2];
      assert ClimbsAt(ids, k - 1);
      if ids[k - 1] == m {
        UpToHas(m);
      } else {
        UpToNext(m);
      }
    }
  }

  /** The ids in use are exactly `0` to the last one: every group up to the last holds a point. */
  lemma GroupIdsContiguous(ts: seq<real>)
    requires |ts| > 0
    ensures Values(GroupIds(ts)) == UpTo(GroupIds(ts)[|ts| - 1])
  {
    var ids := GroupIds(ts);
    forall i | 0 < i < |ids|
      ensures ClimbsAt(ids, i)
    {
      assert Linked(ts, ids, i);
    }
    StepwiseContiguous(ids, |ids|);
    assert ids[..|ids|] == ids;
  }

  /** The number of distinct groups among the points is one more than the last id. */
  lemma DistinctGroups(ts: seq<real>)
    requires |ts| > 0
    ensures |Values(GroupIds(ts))| == GroupIds(ts)[|ts| - 1] + 1
  {
    GroupIdsContiguous(ts);
  }

  /** Points at 1.000 s, 1.010 s and 1.020 s form one gesture; a point at 2.000 s, 0.98 s
      later, starts a second. */
  lemma TwoGestures()
    ensures GroupIds([1.0, 1.01, 1.02, 2.0]) == [0, 0, 0, 1]
  {
    assert [1.0, 1.01, 1.02, 2.0][..3] == [1.0, 1.01, 1.02];
    assert [1.0, 1.01, 1.02][..2] == [1.0, 1.01];
    assert [1.0, 1.01][..1] == [1.0];
  }

  /** A first point stamped exactly 0.0 is taken for "no previous point": even a gap of
      five seconds after it does not start a new group. */
  lemma ZeroStampNeverSplits()
    ensures GroupIds([0.0, 5.0]) == [0, 0]
  {
    assert [0.0, 5.0][..1] == [0.0];
  }
}

=== FILE: text.dfy ===
/** The few string operations the log scanner relies on, with Python's meaning. */
module Text {

  /** Whitespace as Python's `str.isspace`, `str.split()` and `str.strip()` see it. */
  predicate IsSpace(c: char) {
    || c == ' '
    || ('\t' <= c <= '\r')
    || ('\U{1C}' <= c <= '\U{1F}')
    || c == '\U{85}' || c == '\U{A0}' || c == '\U{1680}'
    || ('\U{2000}' <= c <= '\U{200A}')
    || c == '\U{2028}' || c == '\U{2029}' || c == '\U{202F}' || c == '\U{205F}' || c == '\U{3000}'
  }

  predicate AllSpace(s: string) {
    forall i | 0 <= i < |s| :: IsSpace(s[i])
  }

  predicate NoSpace(s: string) {
    forall i | 0 <= i < |s| :: !IsSpace(s[i])
  }

  /** `pat` occurs in `s` starting at index `i`. */
  predicate OccursAt(s: string, pat: string, i: int) {
    0 <= i <= |s| - |pat| && s[i..i + |pat|] == pat
  }

  /** Python's `pat in s`: `pat` occurs as a contiguous substring of `s`. */
  predicate Contains(s: string, pat: string) {
    exists i | 0 <= i <= |s| - |pat| :: OccursAt(s, pat, i)
  }

  /** `tok` sits at index `k` of `s` as a whole token followed only by whitespace. */
  predicate IsFinalWordAt(s: string, tok: string, k: int) {
    && OccursAt(s, tok, k)
    && AllSpace(s[k + |tok|..])
    && (k == 0 || IsSpace(s[k - 1]))
  }

  /** `s` with its trailing whitespace removed. */
  function TrimEnd(s: string): (r: string)
    ensures |r| <= |s| && r == s[..|r|]
    ensures AllSpace(s[|r|..])
    ensures r == [] || !IsSpace(r[|r| - 1])
  {
    if |s| > 0 && IsSpace(s[|s| - 1]) then
      var r := TrimEnd(s[..|s| - 1]);
      assert s[..|s| - 1][..|r|] == s[..|r|];
      assert s[|r|..] == s[..|s| - 1][|r|..] + [s[|s| - 1]];
      r
    else s
  }

  /** The longest suffix of `s` that holds no whitespace. */
  function TrailingWord(s: string): (r: string)
    ensures |r| <= |s| && r == s[|s| - |r|..]
    ensures NoSpace(r)
    ensures |r| == |s| || IsSpace(s[|s| - |r| - 1])
  {
    if |s| > 0 && !IsSpace(s[|s| - 1]) then TrailingWord(s[..|s| - 1]) + [s[|s| - 1]] else []
  }

  /** The last whitespace-separated token of `s`, as `s.strip().split()[-1]`,
      or the empty string when `s` is blank. */
  function LastToken(s: string): (r: string)
    ensures NoSpace(r)
    ensures r == [] <==> AllSpace(s)
    ensures exists k | 0 <= k <= |s| - |r| :: IsFinalWordAt(s, r, k)
  {
    var t := TrimEnd(s);
    var r := TrailingWord(t);
    var k := |t| - |r|;
    assert s[k..k + |r|] == r;
    assert s[k + |r|..] == s[|t|..];
    assert t == [] ==> s[|t|..] == s;
    assert r != [] ==> !IsSpace(s[|t| - 1]);
    assert IsFinalWordAt(s, r, k);
    r
  }

  /** Whatever precedes a token, and whatever blank tail follows it, that token is the last one. */
  lemma {:induction false} LastTokenOf(pre: string, tok: string, post: string)
    requires pre == [] || IsSpace(pre[|pre| - 1])
    requires |tok| > 0 && NoSpace(tok)
    requires AllSpace(post)
    ensures LastToken(pre + tok + post) == tok
  {
    TrimEndOf(pre + tok, post);
    TrailingWordOf(pre, tok);
  }

  lemma {:induction false} TrimEndOf(s: string, post: string)
    requires s == [] || !IsSpace(s[|s| - 1])
    requires AllSpace(post)
    ensures TrimEnd(s + post) == s
  {
    if post != [] {
      var u := s + post;
      assert u[..|u| - 1] == s + post[..|post| - 1];
      TrimEndOf(s, post[..|post| - 1]);
    } else {
      assert s + post == s;
    }
  }

  lemma {:induction false} TrailingWordOf(pre: string, tok: string)
    requires pre == [] || IsSpace(pre[|pre| - 1])
    requires NoSpace(tok)
    ensures TrailingWord(pre + tok) == tok
  {
    if tok != [] {
      var u := pre + tok;
      assert u[..|u| - 1] == pre + tok[..|tok| - 1];
      TrailingWordOf(pre, tok[..|tok| - 1]);
    } else {
      assert pre + tok == pre;
    }
  }

  /** A string that contains a word with a visible character is not blank. */
  lemma ContainsVisibleNotBlank(s: string, pat: string, j: nat)
    requires Contains(s, pat)
    requires j < |pat| && !IsSpace(pat[j])
    ensures !AllSpace(s)
  {
    var i :| 0 <= i <= |s| - |pat| && OccursAt(s, pat, i);
    assert s[i + j] == pat[j];
  }
}

=== FILE: timestamp.dfy ===
/** Extraction of the bracketed kernel timestamp from a `SYN_REPORT` line: the leftmost
    occurrence of `[`, optional whitespace, digits `.` digits, optional whitespace, `]`
    (the pattern `\[\s*(\d+\.\d+)\s*\]` under `re.search`), read as an exact real. */
module Timestamp {
  import opened Wrappers
  import opened Text

  predicate IsDigit(c: char) {
    '0' <= c <= '9'
  }

  predicate AllDigits(s: string) {
    forall i | 0 <= i < |s| :: IsDigit(s[i])
  }

  function Pow10(n: nat): (p: nat)
    ensures p >= 1
  {
    if n == 0 then 1 else 10 * Pow10(n - 1)
  }

  /** The number a run of decimal digits denotes. */
  function DecimalValue(s: string): (v: nat)
    requires AllDigits(s)
    ensures v < Pow10(|s|)
  {
    if |s| == 0 then 0 else DecimalValue(s[..|s| - 1]) * 10 + (s[|s| - 1] as int - '0' as int)
  }

  /** The value of `whole.frac` written in decimal. */
  function Decimal(whole: string, frac: string): (t: real)
    requires AllDigits(whole) && AllDigits(frac)
    ensures 0.0 <= t
    ensures DecimalValue(whole) as real <= t < DecimalValue(whole) as real + 1.0
  {
    FractionBelowOne(DecimalValue(frac), Pow10(|frac|));
    DecimalValue(whole) as real + DecimalValue(frac) as real / Pow10(|frac|) as real
  }

  lemma FractionBelowOne(f: nat, p: nat)
    requires f < p
    ensures 0.0 <= f as real / p as real < 1.0
  {
    var q := f as real / p as real;
    assert q * p as real == f as real;
  }

  /** The decimal digit for a value below 10. */
  function DecDigit(v: nat): (c: char)
    requires v < 10
    ensures IsDigit(c) && c as int - '0' as int == v
  {
    ('0' as int + v) as char
  }

  /** `n` in decimal, zero-padded to at least `width` digits (C's `%0*lu`). */
  function FormatDec(n: nat, width: nat): (s: string)
    ensures |s| >= 1 && |s| >= width
    ensures AllDigits(s)
    decreases n + width
  {
    if n < 10 && width <= 1 then [DecDigit(n)]
    else FormatDec(n / 10, if width > 0 then width - 1 else 0) + [DecDigit(n % 10)]
  }

  /** Reading digits back undoes formatting, whatever the padding. */
  lemma {:induction false} DecimalValueFormat(n: nat, width: nat)
    ensures DecimalValue(FormatDec(n, width)) == n
    decreases n + width
  {
    var s := FormatDec(n, width);
    if n < 10 && width <= 1 {
      assert s[..0] == [];
    } else {
      var w := if width > 0 then width - 1 else 0;
      DecimalValueFormat(n / 10, w);
      assert s[..|s| - 1] == FormatDec(n / 10, w);
    }
  }

  /** A value that fits in `width` digits is formatted in exactly `width` digits. */
  lemma {:induction false} FormatDecWidth(n: nat, width: nat)
    requires 1 <= width && n < Pow10(width)
    ensures |FormatDec(n, width)| == width
    decreases width
  {
    if !(n < 10 && width <= 1) {
      FormatDecWidth(n / 10, width - 1);
    }
  }

  /** The kernel prints a timestamp as `%lu.%06lu` (seconds, then microseconds padded to
      six digits); reading it back gives seconds plus microseconds over a million. */
  lemma KernelStamp(sec: nat, usec: nat)
    requires usec < 1000000
    ensures Decimal(FormatDec(sec, 1), FormatDec(usec, 6)) == sec as real + usec as real / 1000000.0
  {
    assert Pow10(6) == 1000000 by {
      assert Pow10(3) == 1000;
    }
    FormatDecWidth(usec, 6);
    DecimalValueFormat(sec, 1);
    DecimalValueFormat(usec, 6);
  }

  /** The end of the run of whitespace that starts at `i`. */
  function SpacesEnd(s: string, i: nat): (j: nat)
    requires i <= |s|
    ensures i <= j <= |s|
    ensures AllSpace(s[i..j])
    ensures j == |s| || !IsSpace(s[j])
    decreases |s| - i
  {
    if i < |s| && IsSpace(s[i]) then SpacesEnd(s, i + 1) else i
  }

  /** The end of the run of decimal digits that starts at `i`. */
  function DigitsEnd(s: string, i: nat): (j: nat)
    requires i <= |s|
    ensures i <= j <= |s|
    ensures AllDigits(s[i..j])
    ensures j == |s| || !IsDigit(s[j])
    decreases |s| - i
  {
    if i < |s| && IsDigit(s[i]) then DigitsEnd(s, i + 1) else i
  }

  /** The timestamp when the bracket pattern matches at index `i` of `s`. Every part of the
      pattern is greedy and no shorter run could be followed by what comes next, so a single
      left-to-right pass decides the match exactly as a backtracking matcher would. */
  function MatchAt(s: string, i: nat): (r: Option<real>)
    requires i <= |s|
    ensures r.Some? ==> i < |s| && s[i] == '[' && r.value >= 0.0
  {
    if i < |s| && s[i] == '[' then
      var a := SpacesEnd(s, i + 1);
      var b := DigitsEnd(s, a);
      if a < b < |s| && s[b] == '.' then
        var c := DigitsEnd(s, b + 1);
        if b + 1 < c then
          var d := SpacesEnd(s, c);
          if d < |s| && s[d] == ']' then Some(Decimal(s[a..b], s[b + 1..c])) else None
        else None
      else None
    else None
  }

  /** The index of the leftmost match at or after index `from`, if there is one. */
  function FirstMatchFrom(s: string, from: nat): (r: Option<nat>)
    requires from <= |s|
    ensures r.Some? ==> from <= r.value < |s| && MatchAt(s, r.value).Some?
    ensures forall j | from <= j <= |s| && (r.None? || j < r.value) :: MatchAt(s, j).None?
    decreases |s| - from
  {
    if from == |s| then None
    else if MatchAt(s, from).Some? then Some(from)
    else FirstMatchFrom(s, from + 1)
  }

  /** The timestamp of a line: its leftmost match, or `None` when the pattern occurs nowhere. */
  function Find(s: string): (r: Option<real>)
    ensures r.None? <==> forall i | 0 <= i <= |s| :: MatchAt(s, i).None?
    ensures r.Some? ==> exists i | 0 <= i < |s| ::
              && MatchAt(s, i) == r
              && forall j | 0 <= j < i :: MatchAt(s, j).None?
  {
    match FirstMatchFrom(s, 0)
    case None => None
    case Some(i) => MatchAt(s, i)
  }

  /** A bracketed timestamp as the kernel prints it: `[`, padding, digits `.` digits, padding, `]`. */
  function Bracketed(lead: string, whole: string, frac: string, trail: string): string {
    "[" + lead + whole + "." + frac + trail + "]"
  }

  /** Any run of whitespace followed by a character that is not whitespace is skipped exactly. */
  lemma SpacesEndOf(s: string, i: nat, j: nat)
    requires i <= j <= |s|
    requires AllSpace(s[i..j])
    requires j == |s| || !IsSpace(s[j])
    ensures SpacesEnd(s, i) == j
  {
  }

  lemma DigitsEndOf(s: string, i: nat, j: nat)
    requires i <= j <= |s|
    requires AllDigits(s[i..j])
    requires j == |s| || !IsDigit(s[j])
    ensures DigitsEnd(s, i) == j
  {
  }

  /** A line holding a well-formed bracketed timestamp from index `i` matches there, with
      the value its digits denote. */
  lemma MatchLaidOut(s: string, i: nat, lead: string, whole: string, frac: string, trail: string)
    requires AllSpace(lead) && AllSpace(trail)
    requires |whole| > 0 && AllDigits(whole)
    requires |frac| > 0 && AllDigits(frac)
    requires LaidOut(s, i, lead, whole, frac, trail)
    ensures MatchAt(s, i) == Some(Decimal(whole, frac))
  {
    var a := i + 1 + |lead|;
    var b := a + |whole|;
    var c := b + 1 + |frac|;
    var d := c + |trail|;
    LaidOutParts(s, i, lead, whole, frac, trail);
    MatchAtParts(s, i, a, b, c, d, whole, frac);
  }

  /** Where each part of a bracketed timestamp sits once it is embedded in a line. */
  lemma BracketedLayout(pre: string, lead: string, whole: string, frac: string, trail: string, post: string)
    ensures LaidOut(pre + Bracketed(lead, whole, frac, trail) + post, |pre|, lead, whole, frac, trail)
  {
    var s := pre + Bracketed(lead, whole, frac, trail) + post;
    assert s == pre + "[" + lead + whole + "." + frac + trail + "]" + post;
  }

  /** A line laid out as `[`, padding `lead`, digits `whole`, `.`, digits `frac`, padding
      `trail`, `]` from index `i`. */
  predicate LaidOut(s: string, i: nat, lead: string, whole: string, frac: string, trail: string) {
    var a := i + 1 + |lead|;
    var b := a + |whole|;
    var c := b + 1 + |frac|;
    var d := c + |trail|;
    && d < |s|
    && s[i] == '[' && s[i + 1..a] == lead && s[a..b] == whole && s[b] == '.'
    && s[b + 1..c] == frac && s[c..d] == trail && s[d] == ']'
  }

  /** On a laid-out well-formed timestamp, each scanner stops exactly where its part ends. */
  lemma LaidOutParts(s: string, i: nat, lead: string, whole: string, frac: string, trail: string)
    requires AllSpace(lead) && AllSpace(trail)
    requires |whole| > 0 && AllDigits(whole)
    requires |frac| > 0 && AllDigits(frac)
    requires LaidOut(s, i, lead, whole, frac, trail)
    ensures var a := i + 1 + |lead|;
            var b := a + |whole|;
            var c := b + 1 + |frac|;
            var d := c + |trail|;
            && i < |s| && s[i] == '['
            && i + 1 <= |s| && SpacesEnd(s, i + 1) == a
            && DigitsEnd(s, a) == b && a < b < |s| && s[b] == '.'
            && DigitsEnd(s, b + 1) == c && b + 1 < c
            && SpacesEnd(s, c) == d && d < |s| && s[d] == ']'
            && s[a..b] == whole && s[b + 1..c] == frac
  {
    LeadEnds(s, i, lead, whole, frac, trail);
    WholeEnds(s, i, lead, whole, frac, trail);
    FracEnds(s, i, lead, whole, frac, trail);
    TrailEnds(s, i, lead, whole, frac, trail);
  }

  /** On a laid-out timestamp the leading padding ends where the whole digits start. */
  lemma LeadEnds(s: string, i: nat, lead: string, whole: string, frac: string, trail: string)
    requires AllSpace(lead) && AllSpace(trail)
    requires |whole| > 0 && AllDigits(whole)
    requires |frac| > 0 && AllDigits(frac)
    requires LaidOut(s, i, lead, whole, frac, trail)
    ensures SpacesEnd(s, i + 1) == i + 1 + |lead|
  {
    var a := i + 1 + |lead|;
    var b := a + |whole|;
    var c := b + 1 + |frac|;
    var d := c + |trail|;
    assert s[a] == s[a..b][0];
    SpacesEndOf(s, i + 1, a);
  }

  /** On a laid-out timestamp the whole digits end at the point. */
  lemma WholeEnds(s: string, i: nat, lead: string, whole: string, frac: string, trail: string)
    requires AllSpace(lead) && AllSpace(trail)
    requires |whole| > 0 && AllDigits(whole)
    requires |frac| > 0 && AllDigits(frac)
    requires LaidOut(s, i, lead, whole, frac, trail)
    ensures DigitsEnd(s, i + 1 + |lead|) == i + 1 + |lead| + |whole|
  {
    var a := i + 1 + |lead|;
    var b := a + |whole|;
    var c := b + 1 + |frac|;
    var d := c + |trail|;
    DigitsEndOf(s, a, b);
  }

  /** On a laid-out timestamp the fraction digits end where the trailing padding starts. */
  lemma FracEnds(s: string, i: nat, lead: string, whole: string, frac: string, trail: string)
    requires AllSpace(lead) && AllSpace(trail)
    requires |whole| > 0 && AllDigits(whole)
    requires |frac| > 0 && AllDigits(frac)
    requires LaidOut(s, i, lead, whole, frac, trail)
    ensures DigitsEnd(s, i + 2 + |lead| + |whole|) == i + 2 + |lead| + |whole| + |frac|
  {
    var a := i + 1 + |lead|;
    var b := a + |whole|;
    var c := b + 1 + |frac|;
    var d := c + |trail|;
    if |trail| > 0 {
      assert s[c] == s[c..d][0];
    }
    DigitsEndOf(s, b + 1, c);
  }

  /** On a laid-out timestamp the trailing padding ends at the closing bracket. */
  lemma TrailEnds(s: string, i: nat, lead: string, whole: string, frac: string, trail: string)
    requires AllSpace(lead) && AllSpace(trail)
    requires |whole| > 0 && AllDigits(whole)
    requires |frac| > 0 && AllDigits(frac)
    requires LaidOut(s, i, lead, whole, frac, trail)
    ensures SpacesEnd(s, i + 2 + |lead| + |whole| + |frac|) == i + 2 + |lead| + |whole| + |frac| + |trail|
  {
    var a := i + 1 + |lead|;
    var b := a + |whole|;
    var c := b + 1 + |frac|;
    var d := c + |trail|;
    SpacesEndOf(s, c, d);
  }

  /** The match at `i` in terms of where each part of the pattern ends. */
  lemma MatchAtParts(s: string, i: nat, a: nat, b: nat, c: nat, d: nat, whole: string, frac: string)
    requires i < |s| && s[i] == '['
    requires i + 1 <= |s| && SpacesEnd(s, i + 1) == a
    requires DigitsEnd(s, a) == b && a < b < |s| && s[b] == '.'
    requires DigitsEnd(s, b + 1) == c && b + 1 < c
    requires SpacesEnd(s, c) == d && d < |s| && s[d] == ']'
    requires s[a..b] == whole && s[b + 1..c] == frac
    ensures MatchAt(s, i) == Some(Decimal(whole, frac))
  {
  }

  /** The converse of `MatchLaidOut`: a match at `i` is a `[`, padding, digits `.` digits,
      padding and `]` laid out from `i`, and its value is the one those digits denote. */
  lemma MatchSound(s: string, i: nat) returns (lead: string, whole: string, frac: string, trail: string)
    requires i <= |s|
    ensures MatchAt(s, i).Some? ==>
      && AllSpace(lead) && AllSpace(trail)
      && |whole| > 0 && AllDigits(whole)
      && |frac| > 0 && AllDigits(frac)
      && LaidOut(s, i, lead, whole, frac, trail)
      && MatchAt(s, i) == Some(Decimal(whole, frac))
  {
    lead, whole, frac, trail := "", "", "", "";
    MatchPositions(s, i);
    if Bracketable(s, i) {
      var a := SpacesEnd(s, i + 1);
      var b := DigitsEnd(s, a);
      var c := DigitsEnd(s, b + 1);
      var d := SpacesEnd(s, c);
      lead, whole, frac, trail := s[i + 1..a], s[a..b], s[b + 1..c], s[c..d];
      CutLaidOut(s, i, a, b, c, d);
      MatchAtParts(s, i, a, b, c, d, whole, frac);
    }
  }

  /** Cutting `s` where the parts of a bracketed timestamp end lays the parts out from `i`. */
  lemma CutLaidOut(s: string, i: nat, a: nat, b: nat, c: nat, d: nat)
    requires i + 1 <= a < b && b + 1 < c <= d < |s|
    requires s[i] == '[' && s[b] == '.' && s[d] == ']'
    ensures LaidOut(s, i, s[i + 1..a], s[a..b], s[b + 1..c], s[c..d])
  {
    assert |s[i + 1..a]| == a - i - 1 && |s[a..b]| == b - a && |s[b + 1..c]| == c - b - 1;
  }

  /** The shape the pattern demands at `i`, read off the scanners: a `[`, then after the
      padding a non-empty digit run ending in `.`, a non-empty digit run, padding and `]`. */
  predicate Bracketable(s: string, i: nat) {
    && i < |s| && s[i] == '['
    && var a := SpacesEnd(s, i + 1);
       var b := DigitsEnd(s, a);
       && a < b < |s| && s[b] == '.'
       && var c := DigitsEnd(s, b + 1);
          var d := SpacesEnd(s, c);
          b + 1 < c && d < |s| && s[d] == ']'
  }

  /** The pattern matches at `i` exactly when the scanners find its shape there. */
  lemma MatchPositions(s: string, i: nat)
    requires i <= |s|
    ensures MatchAt(s, i).Some? <==> Bracketable(s, i)
  {
  }

  /** A well-formed bracketed timestamp starts at `i`: a `[`, padding, a non-empty digit run,
      `.`, a non-empty digit run, padding and `]`. */
  ghost predicate WellFormedAt(s: string, i: nat) {
    exists lead: string, whole: string, frac: string, trail: string ::
      && AllSpace(lead) && AllSpace(trail)
      && |whole| > 0 && AllDigits(whole)
      && |frac| > 0 && AllDigits(frac)
      && LaidOut(s, i, lead, whole, frac, trail)
  }

  /** The pattern matches at `i` exactly when a well-formed bracketed timestamp starts there. */
  lemma MatchIffWellFormed(s: string, i: nat)
    requires i <= |s|
    ensures MatchAt(s, i).Some? <==> WellFormedAt(s, i)
  {
    if MatchAt(s, i).Some? {
      var lead, whole, frac, trail := MatchSound(s, i);
    }
    if WellFormedAt(s, i) {
      var lead, whole, frac, trail :|
        && AllSpace(lead) && AllSpace(trail)
        && |whole| > 0 && AllDigits(whole)
        && |frac| > 0 && AllDigits(frac)
        && LaidOut(s, i, lead, whole, frac, trail);
      MatchLaidOut(s, i, lead, whole, frac, trail);
    }
  }

  /** When nothing before a well-formed bracketed timestamp opens a bracket, that timestamp
      is the one found. */
  lemma FindLaidOut(s: string, i: nat, lead: string, whole: string, frac: string, trail: string)
    requires LaidOut(s, i, lead, whole, frac, trail)
    requires forall k | 0 <= k < i :: s[k] != '['
    requires AllSpace(lead) && AllSpace(trail)
    requires |whole| > 0 && AllDigits(whole)
    requires |frac| > 0 && AllDigits(frac)
    ensures Find(s) == Some(Decimal(whole, frac))
  {
    MatchLaidOut(s, i, lead, whole, frac, trail);
    SkipUnbracketed(s, i, 0);
    assert FirstMatchFrom(s, 0) == Some(i);
  }

  lemma {:induction false} SkipUnbracketed(s: string, n: nat, from: nat)
    requires from <= n < |s|
    requires forall i | from <= i < n :: s[i] != '['
    requires MatchAt(s, n).Some?
    ensures FirstMatchFrom(s, from) == Some(n)
    decreases n - from
  {
    if from < n {
      SkipUnbracketed(s, n, from + 1);
      assert MatchAt(s, from).None?;
      assert FirstMatchFrom(s, from) == FirstMatchFrom(s, from + 1);
    } else {
      assert FirstMatchFrom(s, from) == Some(from);
    }
  }
}

=== FILE: visualise.dfy ===
/** The scan loop of `parse_and_visualize` as written: one pass over the log that keeps the
    pending coordinates, the last timestamp and a group counter, and appends each committed
    point to three parallel output lists (x, flipped y, colour). */
module Visualise {
  import opened Wrappers
  import opened Lexer
  import opened Parser
  import opened Segmenter

  /** Screen height in pixels; plotted y is `ScreenHeight - y`. */
  const ScreenHeight: int := 3120

  /** The colours cycled through, one per group. */
  const Palette: seq<string> := ["#FF5733", "#33FF57", "#3357FF", "#FF33A1", "#A133FF",
                                 "#33FFA1", "#FFFF33", "#FF8C33", "#33FFF3", "#F333FF"]

  /** The colour of group `g`: the palette, cycled. */
  function Colour(g: nat): (c: string)
    ensures c in Palette
  {
    Palette[g % |Palette|]
  }

  /** The loop's variables: pending coordinates, the timestamp of the last plotted point
      (initially `0.0`), the group counter and the three output lists. */
  datatype State = State(
    pendingX: Option<nat>,
    pendingY: Option<nat>,
    lastTimestamp: real,
    groupId: nat,
    xs: seq<nat>,
    ys: seq<int>,
    colors: seq<string>)

  const Initial: State := State(None, None, 0.0, 0, [], [], [])

  /** The bookkeeping half of an iteration: adopt the pending coordinates the line left
      and, when it committed a point, pick the point's group by the gap rule and append
      raw x, flipped y and the group's colour. Earlier output is never touched; the
      counter moves up by at most one, and only with a point. */
  function Record(st: State, f: Feeding): (r: State)
    ensures r.pendingX == f.pending.x && r.pendingY == f.pending.y
    ensures st.xs <= r.xs && st.ys <= r.ys && st.colors <= r.colors
    ensures |r.xs| == |st.xs| + |Emitted(f.emitted)|
    ensures |r.ys| == |st.ys| + |Emitted(f.emitted)|
    ensures |r.colors| == |st.colors| + |Emitted(f.emitted)|
    ensures f.emitted.None? ==> r.groupId == st.groupId && r.lastTimestamp == st.lastTimestamp
    ensures f.emitted.Some? ==>
              && r.xs[|st.xs|] == f.emitted.value.x
              && r.ys[|st.ys|] == ScreenHeight - f.emitted.value.y
              && r.colors[|st.colors|] == Palette[r.groupId % |Palette|]
              && r.lastTimestamp == f.emitted.value.timestamp
              && (r.groupId == st.groupId + 1 <==> StartsNewGroup(st.lastTimestamp, f.emitted.value.timestamp))
              && (r.groupId == st.groupId || r.groupId == st.groupId + 1)
  {
    match f.emitted
    case None => st.(pendingX := f.pending.x, pendingY := f.pending.y)
    case Some(pt) =>
      var g := if StartsNewGroup(st.lastTimestamp, pt.timestamp) then st.groupId + 1 else st.groupId;
      State(f.pending.x, f.pending.y, pt.timestamp, g,
            st.xs + [pt.x], st.ys + [ScreenHeight - pt.y], st.colors + [Colour(g)])
  }

  /** The loop over a classified log, stopping at the first line that raises. The output
      lists stay parallel, every colour comes from the palette, and there are never more
      points than `SYN_REPORT` lines nor more group increments than points after the first. */
  function Scan(es: seq<Event>): (r: Result<State, ScanError>)
    ensures r.Success? ==>
              && |r.value.xs| == |r.value.ys| == |r.value.colors|
              && |r.value.xs| <= SynCount(es)
              && (forall k | 0 <= k < |r.value.colors| :: r.value.colors[k] in Palette)
              && (if |r.value.xs| == 0 then r.value.groupId == 0 && r.value.lastTimestamp == 0.0
                  else r.value.groupId < |r.value.xs|)
    ensures r.Success? && |es| > 0 && es[|es| - 1].isSyn ==>
              r.value.pendingX.None? && r.value.pendingY.None?
    ensures r.Failure? ==> r.error.line < |es|
  {
    if |es| == 0 then Success(Initial)
    else
      var prev :- Scan(es[..|es| - 1]);
      match Feed(Pending(prev.pendingX, prev.pendingY), es[|es| - 1])
      case Failure(err) => Failure(ScanError(|es| - 1, err))
      case Success(f) =>
        var next := Record(prev, f);
        assert forall k | 0 <= k < |prev.colors| :: next.colors[k] == prev.colors[k];
        assert f.emitted.Some? ==> es[|es| - 1].isSyn;
        assert |prev.xs| == 0 && f.emitted.Some? ==> !StartsNewGroup(prev.lastTimestamp, f.emitted.value.timestamp);
        Success(next)
  }

  /** The loop over the log's text lines. After a `SYN_REPORT` line nothing is pending,
      and there are never more points than `SYN_REPORT` lines. */
  function ScanLines(lines: seq<string>): (r: Result<State, ScanError>)
    ensures r.Success? && |lines| > 0 && IsSynLine(lines[|lines| - 1]) ==>
              r.value.pendingX.None? && r.value.pendingY.None?
    ensures r.Success? ==> |r.value.xs| <= SynCount(LexAll(lines))
    ensures r.Failure? ==> r.error.line < |lines|
  {
    Scan(LexAll(lines))
  }

  /** What the function reports: nothing to plot, or the three lists and the group count. */
  datatype Outcome = NoPoints | Plotted(xs: seq<nat>, ys: seq<int>, colors: seq<string>, groupCount: nat)

  /** The end of the scan: an early return when no point was found, otherwise the lists and
      `groupId + 1` groups. */
  function Finish(st: State): (o: Outcome)
    ensures o.NoPoints? <==> |st.xs| == 0
    ensures o.Plotted? ==> o.xs == st.xs && o.ys == st.ys && o.colors == st.colors
    ensures o.Plotted? ==> o.groupCount == st.groupId + 1
  {
    if |st.xs| == 0 then NoPoints else Plotted(st.xs, st.ys, st.colors, st.groupId + 1)
  }

  /** `parse_and_visualize` up to the point where plotting begins: it fails exactly when
      the parse does, and takes the early return exactly when the parse commits no point. */
  function ParseAndVisualize(lines: seq<string>): (r: Result<Outcome, ScanError>)
    ensures r.Success? <==> Points(LexAll(lines)).Success?
    ensures r.Success? ==> (r.value.NoPoints? <==> |Points(LexAll(lines)).value.points| == 0)
    ensures r.Success? && r.value.Plotted? ==>
              |r.value.xs| == |r.value.ys| == |r.value.colors| == |Points(LexAll(lines)).value.points|
  {
    ScanAgrees(LexAll(lines));
    var st :- ScanLines(lines);
    Success(Finish(st))
  }

  // ---------------------------------------------------------------------------
  // The fused loop agrees with "parse the points, then group them by time".

  function Timestamps(pts: seq<TouchPoint>): (ts: seq<real>)
    ensures |ts| == |pts|
    ensures forall k | 0 <= k < |pts| :: ts[k] == pts[k].timestamp
  {
    seq(|pts|, k requires 0 <= k < |pts| => pts[k].timestamp)
  }

  /** The loop state `st` is what parsing and then grouping `parsed` yields. */
  predicate Agrees(st: State, parsed: Parsed) {
    var pts := parsed.points;
    var ids := GroupIds(Timestamps(pts));
    && st.pendingX == parsed.pending.x
    && st.pendingY == parsed.pending.y
    && |st.xs| == |pts| && |st.ys| == |pts| && |st.colors| == |pts|
    && (forall k | 0 <= k < |pts| ::
          && st.xs[k] == pts[k].x
          && st.ys[k] == ScreenHeight - pts[k].y
          && st.colors[k] == Colour(ids[k]))
    && st.groupId == (if |pts| == 0 then 0 else ids[|pts| - 1])
    && st.lastTimestamp == (if |pts| == 0 then 0.0 else pts[|pts| - 1].timestamp)
  }

  lemma TimestampsSnoc(pts: seq<TouchPoint>, p: TouchPoint)
    ensures Timestamps(pts + [p]) == Timestamps(pts) + [p.timestamp]
  {
  }

  /** One more line keeps the loop state in step with the two-phase reading. */
  lemma RecordAgrees(st: State, parsed: Parsed, f: Feeding)
    requires Agrees(st, parsed)
    ensures Agrees(Record(st, f), Parsed(f.pending, parsed.points + Emitted(f.emitted)))
  {
    if f.emitted.Some? {
      RecordPointAgrees(st, parsed, f);
    } else {
      assert parsed.points + Emitted(f.emitted) == parsed.points;
    }
  }

  lemma RecordPointAgrees(st: State, parsed: Parsed, f: Feeding)
    requires Agrees(st, parsed)
    requires f.emitted.Some?
    ensures Agrees(Record(st, f), Parsed(f.pending, parsed.points + [f.emitted.value]))
  {
    var pts := parsed.points;
    var pts' := pts + [f.emitted.value];
    var ids := GroupIds(Timestamps(pts));
    var ids' := GroupIds(Timestamps(pts'));
    var next := Record(st, f);
    RecordPointGroup(st, parsed, f);
    forall k | 0 <= k < |pts'|
      ensures next.xs[k] == pts'[k].x
      ensures next.ys[k] == ScreenHeight - pts'[k].y
      ensures next.colors[k] == Colour(ids'[k])
    {
      if k < |pts| {
        assert next.xs[k] == st.xs[k] && next.ys[k] == st.ys[k] && next.colors[k] == st.colors[k];
        assert ids'[k] == ids'[..|pts|][k] == ids[k];
      }
    }
  }

  /** Committing a point moves the counter to that point's time-gap group and leaves the
      groups of the earlier points alone. */
  lemma RecordPointGroup(st: State, parsed: Parsed, f: Feeding)
    requires Agrees(st, parsed)
    requires f.emitted.Some?
    ensures var pts := parsed.points;
            var ids' := GroupIds(Timestamps(pts + [f.emitted.value]));
            && ids'[..|pts|] == GroupIds(Timestamps(pts))
            && Record(st, f).groupId == ids'[|pts|]
  {
    var pts := parsed.points;
    var pt := f.emitted.value;
    var ts := Timestamps(pts);
    TimestampsSnoc(pts, pt);
    GroupIdsSnoc(ts, pt.timestamp);
  }

  /** The loop, as written, computes exactly the points the parser commits, with x kept,
      y flipped, and each colour chosen by the point's time-gap group; it fails exactly
      when the parser does, at the same line and for the same reason. */
  lemma {:induction false} ScanAgrees(es: seq<Event>)
    ensures Scan(es).Success? <==> Points(es).Success?
    ensures Scan(es).Failure? ==> Scan(es).error == Points(es).error
    ensures Scan(es).Success? ==> Agrees(Scan(es).value, Points(es).value)
  {
    if |es| > 0 {
      var front := es[..|es| - 1];
      var e := es[|es| - 1];
      ScanAgrees(front);
      DropLast(es);
      if Scan(front).Success? {
        PointsSnoc(front, e);
        var f := Feed(Points(front).value.pending, e);
        assert Pending(Scan(front).value.pendingX, Scan(front).value.pendingY) == Points(front).value.pending;
        if f.Success? {
          RecordAgrees(Scan(front).value, Points(front).value, f.value);
        }
      }
    }
  }

  /** The reported group count is the number of distinct time-gap groups among the points. */
  lemma {:induction false} ReportedGroupsAreDistinct(lines: seq<string>)
    requires ParseAndVisualize(lines).Success? && ParseAndVisualize(lines).value.Plotted?
    ensures Points(LexAll(lines)).Success?
    ensures ParseAndVisualize(lines).value.groupCount ==
              |Values(GroupIds(Timestamps(Points(LexAll(lines)).value.points)))|
  {
    var es := LexAll(lines);
    ScanAgrees(es);
    var pts := Points(es).value.points;
    DistinctGroups(Timestamps(pts));
  }

  /** Every plotted colour is the palette entry of its point's group, cycled modulo ten. */
  lemma {:induction false} ColoursCycleByGroup(lines: seq<string>)
    requires ParseAndVisualize(lines).Success? && ParseAndVisualize(lines).value.Plotted?
    ensures Points(LexAll(lines)).Success?
    ensures var o := ParseAndVisualize(lines).value;
            var ids := GroupIds(Timestamps(Points(LexAll(lines)).value.points));
            && |o.colors| == |ids|
            && forall k | 0 <= k < |ids| :: o.colors[k] == Palette[ids[k] % 10]
  {
    ScanAgrees(LexAll(lines));
  }

  /** Coordinates after the last `SYN_REPORT` are never plotted: lines without a
      `SYN_REPORT` change neither the output lists nor the group counter. */
  lemma TrailingCoordinatesNotPlotted(es: seq<Event>, rest: seq<Event>)
    requires SynCount(rest) == 0
    requires Scan(es + rest).Success?
    ensures Scan(es).Success?
    ensures var a := Scan(es).value;
            var b := Scan(es + rest).value;
            b.xs == a.xs && b.ys == a.ys && b.colors == a.colors && b.groupId == a.groupId
  {
    ScanAgrees(es + rest);
    TrailingUpdatesDropped(es, rest);
    ScanAgrees(es);
    SamePointsSameOutput(es, es + rest);
  }

  /** The loop's output depends only on the points the parser commits: two logs that
      commit the same points produce the same lists and the same group counter. */
  lemma SamePointsSameOutput(es1: seq<Event>, es2: seq<Event>)
    requires Points(es1).Success? && Points(es2).Success?
    requires Points(es1).value.points == Points(es2).value.points
    ensures Scan(es1).Success? && Scan(es2).Success?
    ensures var a := Scan(es1).value;
            var b := Scan(es2).value;
            a.xs == b.xs && a.ys == b.ys && a.colors == b.colors && a.groupId == b.groupId
  {
    ScanAgrees(es1);
    ScanAgrees(es2);
    var a := Scan(es1).value;
    var b := Scan(es2).value;
    forall k | 0 <= k < |Points(es1).value.points|
      ensures a.xs[k] == b.xs[k] && a.ys[k] == b.ys[k] && a.colors[k] == b.colors[k]
    {
    }
  }

  /** A log with no marker on any line, the empty log included, takes the early return. */
  lemma {:induction false} QuietLogHasNoPoints(lines: seq<string>)
    requires forall i | 0 <= i < |lines| :: IsUnmarked(lines[i])
    ensures ParseAndVisualize(lines) == Success(NoPoints)
  {
    var es := LexAll(lines);
    assert forall i | 0 <= i < |es| :: es[i].update == NoUpdate && !es[i].isSyn by {
      forall i | 0 <= i < |es|
        ensures es[i].update == NoUpdate && !es[i].isSyn
      {
        assert es[i] == Lex(lines[i]);
      }
    }
    PointsOfQuiet(es);
    ScanAgrees(es);
  }
}

=== FILE: wrappers.dfy ===
/** Failure-compatible Option and Result datatypes used throughout the model. */
module Wrappers {

  /** An optional value: Python's `None` or a present value. */
  datatype Option<+T> = None | Some(value: T)

  /** Either a value or the error that aborted the computation (a raised exception). */
  datatype Result<+R, +E> = Success(value: R) | Failure(error: E) {

    predicate IsFailure() {
      Failure?
    }

    function PropagateFailure<U>(): Result<U, E>
      requires Failure?
    {
      Failure(error)
    }

    function Extract(): R
      requires Success?
    {
      value
    }
  }
}
